=== FILE: README.md ===
# novelfactory chapter workshop — a Dafny model

`app.py` is a Streamlit page that helps an author write a web novel with a
hosted chat model. It keeps one project in the session state. The project
holds:

- the book outline;
- the chapter list, one `第N章 …` line per chapter;
- three chapter-number maps: plans, texts and highlights;
- the number of the last chapter written.

This project models the logic that sits between the widgets and the model
calls:

- `parse_word_target`, which maps a word-count label to a character range
  (module `WordTarget`);
- `get_outline_line_for_chapter` and `build_default_plan`, which look up a
  chapter's line in the chapter list and build a default plan from it
  (module `Outline`);
- `export_project` / `import_project`, which move the chapter maps to and
  from string-keyed JSON objects (module `ProjectFile`);
- the chapter workshop's transitions (module `Workshop`):
  - opening a chapter, which creates its map entries and seeds its plan draft;
  - the prompts for generating and continuing a chapter, with their bounded
    excerpts;
  - the state updates after the model replies.

The Python built-ins this logic relies on are modelled in two modules:

- `PyText`: `str.isspace`, using Python's whitespace table;
  `strip`, `startswith`, substring `in`, `splitlines`, `s[:n]` and `s[-n:]`.
- `PyInt`: `str(int)` and `int(str)`. `int(str)` accepts surrounding
  whitespace, a sign, leading zeros and single underscores between digits.
  The whitespace `int()` skips is not quite that of `str.strip()`: the four
  information separators U+001C..U+001F count as whitespace for `strip` but
  make `int()` raise.

Every reply of the chat model is an ordinary string parameter. `ask_ai`
returns `""` when the request fails (app.py:117-119), so the empty string
stands for a failed call.

The properties proved include:

- The word-range lookup is a first match in a fixed order, and every range
  it returns is non-empty.
- The chapter-line lookup returns the first line of the list whose stripped
  form starts with `第{chap}章`, or `""` when no line does.
- The prefix match never confuses chapters. Every marker ends in `章`, so no
  line can start with the markers of two different chapters. For example,
  chapter 1 does not pick up a `第12章` line.
- The default plan is empty exactly when the lookup is. Its first line is
  `基于目录行：` followed by the chapter's line.
- Saving turns chapter numbers into keys with `str`, and loading reads them
  back with `int`. This restores every chapter map exactly, whatever order
  the members are in. The last chapter is not saved; loading sets it to the
  largest chapter number in the texts map, or 1 when the map is empty. That
  map also holds the `""` entry opening a chapter creates, so a chapter only
  opened, never written, can become the last chapter.
- Loading text that does not parse changes nothing.
- Loading is not atomic. A key `int()` rejects raises part-way through. By
  then the outline fields, and any chapter map already converted, have been
  replaced.
- In a hand-edited file, two different keys can name the same chapter, such
  as `"1"` and `"01"`. The key that comes later in the dict `json.loads`
  builds wins. That dict keeps each key where it first appears in the text,
  with the value it was last given, so a key written twice verbatim counts
  at its first position.
- Generate replaces the chapter's text and highlights. Continue appends
  `"\n\n"` and the reply, so the old text is always a prefix of the new one
  and the reply can be read back from it. Neither touches any other chapter,
  the outline or the plans.
- The continue prompt quotes the last `min(1200, |text|)` characters of the
  chapter. The generate and continue prompts quote the first
  `min(2500, |outline|)` and `min(2000, |outline|)` characters of the
  outline.

## Model

| member | source | states |
|---|---|---|
| PyText.IsSpace | app.py:318 | the whitespace `str.strip()` removes: the Unicode White_Space characters and U+001C..U+001F; every character `splitlines` breaks at is among them |
| PyText.Strip | app.py:318 | the stripped line begins and ends with a non-whitespace character, or is empty |
| PyText.TrimStartIsSuffix | app.py:318 | what `lstrip` keeps is a suffix of the line |
| PyText.TrimStartDropsSpace | app.py:318 | every character `lstrip` removes is whitespace |
| PyText.TrimEndDropsSpace | app.py:318 | every character `rstrip` removes is whitespace |
| PyText.StripFacts | app.py:318-319 | stripping gives `""` exactly for an all-whitespace line, and otherwise returns an infix of the line starting where the leading whitespace ends |
| PyText.IsBlank | app.py:397 | the guard `not s.strip()` of both buttons (also app.py:466) holds exactly when every character is whitespace |
| PyText.SplitLines | app.py:317 | `splitlines` yields at least one piece and no piece holds a line break |
| PyText.SplitLinesRoundTrip | app.py:317 | the pieces, put back together with the breaks in between, give the original text: there is one more piece than there are breaks |
| PyText.Contains | app.py:127-133 | the `in` test: a pattern longer than the text never occurs, and the empty pattern occurs in every text |
| PyText.ContainsAt | app.py:127-133 | the `in` test on strings holds exactly when the pattern occurs at some position |
| PyText.Head | app.py:401 | `s[:n]` is a prefix of `s` of length `min(n, len(s))` |
| PyText.Tail | app.py:470 | `s[-n:]` has length `min(n, len(s))` for `n > 0`, and is all of `s` for `n == 0` |
| PyText.TailIsSuffix | app.py:470 | `s[-n:]` is a suffix of `s`: its characters are the last ones of `s`, in order |
| PyInt.ParseInt | app.py:54-56 | `int("")` raises; ParseIntShape, IntRoundTrip, ParseDigitGroups and SeparatorKeyRejected state which keys it reads and as what |
| PyInt.ParseIntShape | app.py:54-56 | `int(k)` accepts only a key whose stripped form ends in a digit, and gives a negative number only when that form starts with `-` |
| PyInt.IntStrip | app.py:54-56 | `int()` reads the number from the key with the whitespace it accepts cut from both ends: the result is empty or starts and ends with a character `int()` does not skip |
| PyInt.IntTrimStartDropsSpace | app.py:54-56 | every leading character `int()` skips is whitespace other than U+001C..U+001F |
| PyInt.IntTrimEndDropsSpace | app.py:54-56 | every trailing character `int()` skips is whitespace other than U+001C..U+001F |
| PyInt.SeparatorKeyRejected | app.py:54-56 | a key of digits led by U+001C is rejected by `int()`, although `str.strip()` would remove that character |
| PyInt.IntToString | app.py:33-35 | `str(k)` is non-empty, all decimal digits except a leading `-`, which appears exactly when `k < 0` |
| PyInt.IntRoundTrip | app.py:54-56 | `int(str(k)) == k` for every integer `k` |
| PyInt.NaturalRoundTrip | app.py:54-56 | the digits `str` writes for a non-negative number read back as that number |
| PyInt.NegativeRoundTrip | app.py:54-56 | a minus sign followed by the digits of a positive `n` reads back as `-n` |
| PyInt.DigitsValue | app.py:54-56 | the digits `str` writes for `n` spell the value `n` |
| PyInt.IntToStringInjective | app.py:33-35 | distinct chapter numbers get distinct keys |
| PyInt.ParseDigitGroups | app.py:54-56 | a key of digit groups joined by single underscores, leading zeros allowed, is read as its decimal value |
| PyInt.LeadingZeroKeyCollides | app.py:54-56 | the keys `"01"` and `"1"` both read as chapter 1 |
| WordTarget.FirstMatch | app.py:127-136 | the table lookup: the fallback when no key occurs in the label, otherwise the range of the earliest key that occurs |
| WordTarget.FirstHit | app.py:127-136 | the position of the first key, from a given entry on, that occurs in the label: that key occurs, and no key before it does |
| WordTarget.ParseWordTarget | app.py:122-136 | every range returned has `0 < min < max`; a label containing `1500` gets (1300, 1800) whatever else it contains |
| WordTarget.ParseIsFirstMatch | app.py:127-136 | the chain of `if`s is the first-match lookup over the keys `1500`, `2200`, `3000`, `4000` in that order, with (1500, 2500) as the fallback |
| WordTarget.MenuLabelsInRange | app.py:383-386 | each of the four labels offered by the menu gets a range that contains its own nominal count |
| Outline.FirstIndex | app.py:317-323 | the reference index is at most the line count, and when it is less, the line at it starts with the marker once stripped |
| Outline.FirstIndexIsFirst | app.py:317-323 | no line before the reference index qualifies, so the index is that of the first qualifying line, or the line count when none qualifies |
| Outline.FirstQualifyingLine | app.py:317-323 | the scan that skips blank lines and strips the rest returns the stripped line at the reference index, or `""` when no line qualifies |
| Outline.LineFor | app.py:317-323 | over lines without breaks, the scan's result is `""` or one stripped line that starts with the marker and has no whitespace at either end |
| Outline.ScanIsFirstMatch | app.py:317-323 | the scan returns `""` exactly when no line qualifies; otherwise it returns the first qualifying line, stripped |
| Outline.OutlineLineForChapter | app.py:315-323 | the result is `""` or a stripped line of the chapter list that starts with `第{chap}章`, holds no line break, and is the first such line |
| Outline.Marker | app.py:321 | `f"第{chap}章"` is `第`, then exactly the digits `str(chap)` writes, then `章`, which occurs nowhere between them |
| Outline.MarkerExact | app.py:321 | a line that starts with the markers of chapters `a` and `b` has `a == b` |
| Outline.LookupNeverSharedBetweenChapters | app.py:315-323 | two chapters never get the same non-empty line from one chapter list |
| Outline.ChapterOneSkipsChapterTwelve | app.py:321 | the line `第12章 风起` does not qualify for chapter 1 |
| Outline.ChapterOneTakesItsOwnLine | app.py:321 | the line `第1章 开端` qualifies for chapter 1 |
| Outline.BuildDefaultPlan | app.py:356-367 | the plan is empty exactly when the lookup is, and otherwise starts with `基于目录行：` followed by the chapter's line |
| Outline.DefaultPlanFirstLine | app.py:361-362 | the first line of a non-empty plan is the header followed by the chapter's line |
| SessionState.TextOr | app.py:465 | `.get(chap, "")` gives the chapter's entry when there is one and `""` otherwise |
| SessionState.LastChapterOf | app.py:58-61 | the last chapter is the largest chapter number in the texts map, counting an empty entry that opening a chapter creates; 1 when the map is empty |
| ProjectFile.ExportKeys | app.py:33-35 | every chapter is saved under `str(k)` with its value, and every saved key reads back with `int` to a chapter holding that value; the saved keys are exactly the `str` of the chapter numbers |
| ProjectFile.Export | app.py:29-37 | the outline fields are saved as they are; each of the three chapter maps is saved through `str` keys, plans, texts and highlights each under its own field; no two chapters share a key |
| ProjectFile.ExportSize | app.py:33-35 | a saved map has as many entries as the chapter map |
| ProjectFile.LastValue | app.py:54-56 | reference for the dict comprehension: a chapter gets the value of the last member whose key `int()` reads as that chapter, and none when no member names it; IntKeys states that the loaded map agrees with it |
| ProjectFile.IntKeys | app.py:54-56 | reading keys with `int` fails exactly when some key is rejected; otherwise each chapter holds the value of the last item, in dict order, whose key names it |
| ProjectFile.Import | app.py:40-61 | text that does not parse changes nothing; otherwise the outline fields become the file's, or `""` when absent; the load completes exactly when every key is accepted, and the chapter maps then hold the file's entries and the last chapter is the largest chapter number in the texts map; a rejected key leaves the highlights and the last chapter as they were, and the maps are assigned in the order plans, texts, highlights, so those before the first map with a rejected key already hold the file's entries while that map and the later ones keep their old values |
| ProjectFile.LastValueOfExport | app.py:33-56 | in any member order of a saved map, the last member that names a chapter holds that chapter's value |
| ProjectFile.LastValueFound | app.py:54-56 | a chapter named by some member of an object gets a value when loaded |
| ProjectFile.KeysRoundTrip | app.py:33-35 | any member order of a saved chapter map reads back as the original map |
| ProjectFile.SaveLoadRoundTrip | app.py:29-61 | saving a project and loading the file into any state restores it, with the last chapter recomputed |
| ProjectFile.SaveLoadIdentity | app.py:29-61 | a project whose last chapter is already its largest is restored exactly |
| ProjectFile.FreshSessionSurvivesSaveLoad | app.py:13-24 | the fresh session `init_state` sets up, with last chapter 1, saved and loaded into any state, is the fresh session again |
| ProjectFile.LaterMemberOverrides | app.py:54-56 | a key new to a dict, added at its end, overrides the chapter it names |
| ProjectFile.LaterMemberWins | app.py:54-56 | a dict with keys `"1"` then `"01"` loads as chapter 1 holding the second value |
| Workshop.EnsureChapterKeys | app.py:389-393 | opening a chapter adds `""` entries for it when missing, and changes nothing `.get(k, "")` reads |
| Workshop.SeedPlan | app.py:354-370 | an existing plan draft is kept; a missing one becomes the default plan; other drafts are untouched |
| Workshop.AutoTitle | app.py:328-345 | no title without a chapter line; otherwise the reply stripped, empty exactly when the reply is blank, with no whitespace at either end |
| Workshop.AutoTitleFromReply | app.py:341-345 | the title is a piece of the reply, starting where the reply's leading whitespace ends, and a reply that already is a title comes back unchanged |
| Workshop.GenerateRequest | app.py:396-436 | no request for a blank plan; otherwise the prompt quotes a prefix of the outline of length `min(2500, len)`, the chapter's line as the lookup finds it, the plan, the title and the non-empty word range of the chosen label |
| Workshop.Generate | app.py:437-459 | a blank plan or an empty reply changes nothing; otherwise the chapter's text and highlights entries are set to the replies and it becomes the last chapter; every other chapter keeps its entries, present or absent, and its values; the outline fields and plans do not change |
| Workshop.ContinueRequest | app.py:464-497 | no request while the chapter's text is blank; otherwise the prompt quotes a suffix of the text of length `min(1200, len)`, a prefix of the outline of length `min(2000, len)`, the plan, the style and the word range of the chosen label |
| Workshop.Continue | app.py:498-523 | a blank text or an empty reply changes nothing; otherwise the new text is the old text, `"\n\n"` and the reply, the highlights are replaced unless the reply is empty, and it becomes the last chapter; every other chapter keeps its entries, present or absent, and its values, and nothing else changes |
| Workshop.ContinueKeepsText | app.py:503-505 | the chapter's old text is always a prefix of its new text |
| Workshop.ContinueAllKeepsText | app.py:503-505 | after any number of continuations the original text is still a prefix, and no other chapter changed |
| Workshop.ContinueRecoversReply | app.py:504 | for a non-empty reply, the reply is everything after the old text and the separator |
| Workshop.GenerateIdempotent | app.py:437-459 | generating twice with the same replies equals generating once |
| Workshop.GenerateThenContinue | app.py:437-523 | continuing a freshly generated non-blank text appends to it, and the highlights are the newer non-empty reply |
| Workshop.BlankTextBlocksContinue | app.py:465-467 | a generated text of whitespace only cannot be continued |
| Workshop.GenerateThenSaveLoad | app.py:437-439 | after a generate, saving and loading keeps the chapter's text, and the loaded last chapter is at least that chapter |
| Workshop.OpenedChapterBecomesLast | app.py:389-391 | opening a chapter numbered above every chapter in the texts map, then saving and loading, makes it the last chapter although its text is `""` |
| Workshop.OpenedIsLast | app.py:389-391 | opening a chapter numbered above every chapter in the texts map adds a `""` entry that `max(chapter_texts.keys())` then returns |

## Left out

- The Streamlit widgets, page layout, sidebar and the text areas that write
  edited values back into the state (app.py:282-286, 532-545) are left out.
  They are UI plumbing.
- The `number_input` default `int(last_chapter or 1)` and its lower bound of
  1 (app.py:306-311) are left out. The chapter number is a parameter of every
  operation.
- `ask_ai` and the chat client (app.py:70, 97-119) are left out. Each reply
  is a parameter. A `None` reply behaves like `""` wherever the page tests
  it. The `.strip()` applied to a `None` title reply would raise; that case
  is not modelled.
- Prompt wording, the writing rules and temperatures are left out. A prompt
  is modelled by the values it quotes.
- `json.dumps` and `json.loads` text handling is left out. A loaded file is
  the dict `json.loads` returns: each chapter field's items in the dict's
  order, with distinct keys. How `json.loads` merges a key repeated in the
  text is not computed; the model starts from the merged dict. Values are
  taken to be strings and the chapter fields to be objects.
- File upload and download, and the API-key gate (app.py:66-69, 83-94,
  547-553), are left out.
- `PyInt.ParseInt` does not model the non-ASCII Unicode digits that Python's
  `int()` also accepts, nor the limit of 4300 digits above which `int()`
  raises (`sys.get_int_max_str_digits()`, the default limit introduced in
  Python 3.11 and in the 3.10.7, 3.9.14, 3.8.14 and 3.7.14 security
  releases); a longer key is read as its value instead of making the load
  raise.
- PyInt.ParseDigitGroups: states the value of a digit-group key of any
  length; `int()` raises for keys of more than 4300 digits, which the model
  does not.
- ProjectFile.IntKeys: accepts keys of more than 4300 digits, for which
  `int()` raises; such a file loads in the model where `import_project`
  raises part-way.
- ProjectFile.Import: reports `Imported` for a file whose chapter keys
  have more than 4300 digits, where `import_project` raises part-way.
- PyInt.IntToString: `str(k)` raises for numbers of more than 4300 digits;
  the model writes them. Chapter numbers come from a number input and
  from keys already read with `int()`, which stay below that limit.
- `PyText.SplitLines` breaks at every line-boundary character. Python treats
  `\r\n` as one break and drops a final empty line. Both differences add only
  blank lines, which the chapter-line lookup skips, so its result is the
  same.
- `init_state` (app.py:13-24) fills in only the keys a session lacks. The
  model's project always holds all six fields, so only the fresh session,
  `SessionState.Initial`, is modelled.
- The plan drafts the page edits (`chapter_plan_{n}`) are separate from the
  saved `chapter_plans` map. The pages never write that map, so drafts are
  not saved. The model keeps the two apart, as the source does.

=== FILE: outline.dfy ===
/** Finding a chapter's line in the chapter list (`get_outline_line_for_chapter`)
    and the default chapter plan built from it (`build_default_plan`). */
module Outline {
  import opened PyText
  import opened PyInt

  /** `f"第{chap}章"`, the text a chapter's line of the list starts with. */
  function Marker(chap: int): (m: string)
    ensures |m| == |IntToString(chap)| + 2
    ensures m[0] == '第' && m[|m| - 1] == '章'
    ensures m[1..|m| - 1] == IntToString(chap)
    ensures forall i :: 1 <= i < |m| - 1 ==> m[i] != '章'
  {
    var d := IntToString(chap);
    var m := ['第'] + d + ['章'];
    assert forall i :: 1 <= i < |m| - 1 ==> m[i] == d[i - 1];
    m
  }

  /** The line, once stripped, starts with `marker`. */
  predicate Qualifies(line: string, marker: string) {
    StartsWith(Strip(line), marker)
  }

  /** Line `i` qualifies and none before it does. */
  predicate IsFirstQualifying(lines: seq<string>, marker: string, i: int) {
    && 0 <= i < |lines|
    && Qualifies(lines[i], marker)
    && forall j :: 0 <= j < i ==> !Qualifies(lines[j], marker)
  }

  /** Reference definition: the index of the first line that qualifies, or
      `|lines|` when none does. */
  function FirstIndex(lines: seq<string>, marker: string): (k: nat)
    ensures k <= |lines|
    ensures k < |lines| ==> Qualifies(lines[k], marker)
  {
    if lines == [] then 0
    else if Qualifies(lines[0], marker) then 0
    else FirstIndex(lines[1..], marker) + 1
  }

  /** No line before the reference index qualifies. */
  lemma {:induction false} FirstIndexIsFirst(lines: seq<string>, marker: string)
    ensures forall j :: 0 <= j < FirstIndex(lines, marker) ==> !Qualifies(lines[j], marker)
  {
    if lines != [] && !Qualifies(lines[0], marker) {
      FirstIndexIsFirst(lines[1..], marker);
      ShiftedNone(lines, marker, FirstIndex(lines[1..], marker));
    }
  }

  lemma ShiftedNone(lines: seq<string>, marker: string, k: nat)
    requires lines != [] && !Qualifies(lines[0], marker) && k <= |lines| - 1
    requires forall j :: 0 <= j < k ==> !Qualifies(lines[1..][j], marker)
    ensures forall j :: 0 <= j < k + 1 ==> !Qualifies(lines[j], marker)
  {
    forall j | 0 <= j < k + 1
      ensures !Qualifies(lines[j], marker)
    {
      if j > 0 {
        assert lines[j] == lines[1..][j - 1];
      }
    }
  }

  /** The scan the source performs: blank lines are skipped, every other line
      is stripped and returned if it starts with `marker`. It returns the
      stripped line at the reference index, or `""` when no line qualifies. */
  function FirstQualifyingLine(lines: seq<string>, marker: string): (r: string)
    requires marker != []
    ensures var k := FirstIndex(lines, marker);
      r == if k < |lines| then Strip(lines[k]) else ""
  {
    if lines == [] then ""
    else
      var line := Strip(lines[0]);
      if line == [] then
        SkipFirst(lines, marker);
        FirstQualifyingLine(lines[1..], marker)
      else if StartsWith(line, marker) then
        line
      else
        SkipFirst(lines, marker);
        FirstQualifyingLine(lines[1..], marker)
  }

  lemma SkipFirst(lines: seq<string>, marker: string)
    requires lines != [] && !Qualifies(lines[0], marker)
    ensures var k := FirstIndex(lines[1..], marker);
      && FirstIndex(lines, marker) == k + 1
      && (k < |lines| - 1 ==> lines[1..][k] == lines[k + 1])
  {
  }

  /** The scan over split lines: a non-empty result is one stripped line that
      starts with the marker, and it is the stripped line at the reference
      index. */
  function LineFor(lines: seq<string>, marker: string): (r: string)
    requires marker != []
    requires forall i :: 0 <= i < |lines| ==> NoLineBreak(lines[i])
    ensures r == [] || StartsWith(r, marker)
    ensures r == [] || (!IsSpace(r[0]) && !IsSpace(r[|r| - 1]))
    ensures NoLineBreak(r)
    ensures var k := FirstIndex(lines, marker);
      r == if k < |lines| then Strip(lines[k]) else ""
  {
    LineForShape(lines, marker);
    FirstQualifyingLine(lines, marker)
  }

  /** The stripped line at the reference index holds no line break. */
  lemma LineForShape(lines: seq<string>, marker: string)
    requires forall i :: 0 <= i < |lines| ==> NoLineBreak(lines[i])
    ensures var k := FirstIndex(lines, marker);
      k < |lines| ==> NoLineBreak(Strip(lines[k]))
  {
    var k := FirstIndex(lines, marker);
    if k < |lines| {
      StripKeepsNoLineBreak(lines[k]);
    }
  }

  /** `get_outline_line_for_chapter(chap)` on the chapter list `chapterList`. */
  function OutlineLineForChapter(chapterList: string, chap: int): (r: string)
    ensures r == [] || StartsWith(r, Marker(chap))
    ensures r == [] || (!IsSpace(r[0]) && !IsSpace(r[|r| - 1]))
    ensures NoLineBreak(r)
    ensures var lines := SplitLines(chapterList);
      var k := FirstIndex(lines, Marker(chap));
      r == if k < |lines| then Strip(lines[k]) else ""
  {
    LineFor(SplitLines(chapterList), Marker(chap))
  }

  /** The scan comes back empty exactly when no line qualifies; otherwise it
      returns, stripped, the line that qualifies while no line before it does. */
  lemma ScanIsFirstMatch(lines: seq<string>, marker: string)
    requires marker != []
    ensures FirstQualifyingLine(lines, marker) == [] <==>
      forall i :: 0 <= i < |lines| ==> !Qualifies(lines[i], marker)
    ensures var r := FirstQualifyingLine(lines, marker);
      var k := FirstIndex(lines, marker);
      r != [] ==> IsFirstQualifying(lines, marker, k) && r == Strip(lines[k])
  {
    FirstIndexIsFirst(lines, marker);
  }

  /** The match is by prefix, yet it never confuses chapters: because every
      marker ends in `章`, which no digit or sign equals, a line that starts
      with the marker of chapter `a` and with that of chapter `b` has `a == b`.
      In particular the marker of chapter 1 is not a prefix of a chapter 12 line. */
  lemma MarkerExact(s: string, a: int, b: int)
    requires StartsWith(s, Marker(a)) && StartsWith(s, Marker(b))
    ensures a == b
  {
    var ma, mb := Marker(a), Marker(b);
    if |ma| == |mb| {
      assert ma == s[..|ma|] == mb;
      IntToStringInjective();
    }
  }

  /** Two chapters never get the same non-empty line from one chapter list. */
  lemma LookupNeverSharedBetweenChapters(chapterList: string, a: int, b: int)
    requires OutlineLineForChapter(chapterList, a) != []
    requires OutlineLineForChapter(chapterList, a) == OutlineLineForChapter(chapterList, b)
    ensures a == b
  {
    MarkerExact(OutlineLineForChapter(chapterList, a), a, b);
  }

  /** The first line of the default plan. */
  const PlanHeader := "基于目录行："

  /** The fixed checklist that follows the first line of the default plan. */
  const PlanChecklist :=
    "本章需要至少完成以下几点（你可以在此基础上修改）：\n"
    + "1. 用一个具体场景或事件直接引出本章的核心矛盾。\n"
    + "2. 推进至少一个重要人物关系或阵营矛盾，让局势发生可感知变化。\n"
    + "3. 为下一章埋下一个明确的悬念或伏笔（细节形式表现）。"

  /** `build_default_plan(chap)`: empty when the chapter has no line in the
      list, otherwise the header and that line, then the checklist. */
  function BuildDefaultPlan(chapterList: string, chap: int): (r: string)
    ensures r == [] <==> OutlineLineForChapter(chapterList, chap) == []
    ensures r != [] ==> StartsWith(r, PlanHeader + OutlineLineForChapter(chapterList, chap))
  {
    var line := OutlineLineForChapter(chapterList, chap);
    if line == [] then ""
    else
      var first := PlanHeader + line;
      assert (first + "\n" + PlanChecklist)[..|first|] == first;
      first + "\n" + PlanChecklist
  }

  /** The first line of a non-empty default plan is the header followed by
      the chapter's line from the list, so the line can be read back. */
  lemma DefaultPlanFirstLine(chapterList: string, chap: int)
    requires OutlineLineForChapter(chapterList, chap) != []
    ensures SplitLines(BuildDefaultPlan(chapterList, chap))[0] ==
      PlanHeader + OutlineLineForChapter(chapterList, chap)
  {
    var line := OutlineLineForChapter(chapterList, chap);
    HeaderedLineIsOneLine(line);
    SplitFirstLine(PlanHeader + line, PlanChecklist);
  }

  lemma HeaderedLineIsOneLine(line: string)
    requires NoLineBreak(line)
    ensures NoLineBreak(PlanHeader + line)
  {
    HeaderIsOneLine();
    NoLineBreakConcat(PlanHeader, line);
  }

  lemma HeaderIsOneLine()
    ensures NoLineBreak(PlanHeader)
  {
  }

  lemma NoLineBreakConcat(a: string, b: string)
    requires NoLineBreak(a) && NoLineBreak(b)
    ensures NoLineBreak(a + b)
  {
    assert forall j :: |a| <= j < |a + b| ==> (a + b)[j] == b[j - |a|];
  }

  lemma MarkerOfOne()
    ensures Marker(1) == "第1章"
  {
    assert IntToString(1) == "1";
  }

  /** The line of chapter 12 is not taken for chapter 1 ... */
  lemma ChapterOneSkipsChapterTwelve()
    ensures !Qualifies("第12章 风起", Marker(1))
  {
    MarkerOfOne();
    TwelveLineUnpadded();
    TwelveLineLacksOneMarker();
  }

  lemma TwelveLineUnpadded()
    ensures Strip("第12章 风起") == "第12章 风起"
  {
    StripOfUnpadded("第12章 风起");
  }

  lemma TwelveLineLacksOneMarker()
    ensures !StartsWith("第12章 风起", "第1章")
  {
    assert "第12章 风起"[..3] == "第12";
  }

  /** ... while the line of chapter 1 is. */
  lemma ChapterOneTakesItsOwnLine()
    ensures Qualifies("第1章 开端", Marker(1))
  {
    MarkerOfOne();
    OneLineUnpadded();
    OneLineHasOneMarker();
  }

  lemma OneLineUnpadded()
    ensures Strip("第1章 开端") == "第1章 开端"
  {
    StripOfUnpadded("第1章 开端");
  }

  lemma OneLineHasOneMarker()
    ensures StartsWith("第1章 开端", "第1章")
  {
    assert "第1章 开端"[..3] == "第1章";
  }
}

=== FILE: project_file.dfy ===
/** Saving and loading a project (`export_project` / `import_project`).
    The JSON text itself is not modelled: the saved form is the dictionary
    `export_project` hands to `json.dumps`, and loading starts from what
    `json.loads` returned. */
module ProjectFile {
  import opened Wrappers
  import opened PyInt
  import opened SessionState

  /** The dictionary written to the file: chapter numbers become string keys. */
  datatype SavedProject = SavedProject(
    outlineRaw: string,
    outlineChapterList: string,
    chapterPlans: map<string, string>,
    chapterTexts: map<string, string>,
    chapterHighlights: map<string, string>
  )

  /** `{str(k): v for k, v in m.items()}`. Every chapter is kept under the key
      `str(k)`, and every key written parses back to the chapter it came from. */
  function ExportKeys(m: ChapterMap): (r: map<string, string>)
    ensures r.Keys == set k | k in m :: IntToString(k)
    ensures forall k :: k in m ==> IntToString(k) in r && r[IntToString(k)] == m[k]
    ensures forall s :: s in r ==> ParseInt(s).Some? && ParseInt(s).value in m && r[s] == m[ParseInt(s).value]
  {
    IntToStringInjective();
    AllIntsRoundTrip();
    map k | k in m :: IntToString(k) := m[k]
  }

  lemma AllIntsRoundTrip()
    ensures forall k :: ParseInt(IntToString(k)) == Some(k)
  {
    forall k {
      IntRoundTrip(k);
    }
  }

  /** `export_project()`. The last chapter is not saved. */
  function Export(p: Project): (saved: SavedProject)
    ensures saved.outlineRaw == p.outlineRaw && saved.outlineChapterList == p.outlineChapterList
    ensures saved.chapterPlans == ExportKeys(p.chapterPlans)
    ensures saved.chapterTexts == ExportKeys(p.chapterTexts)
    ensures saved.chapterHighlights == ExportKeys(p.chapterHighlights)
    ensures |saved.chapterTexts| == |p.chapterTexts|
  {
    ExportSize(p.chapterTexts);
    SavedProject(p.outlineRaw, p.outlineChapterList,
      ExportKeys(p.chapterPlans), ExportKeys(p.chapterTexts), ExportKeys(p.chapterHighlights))
  }

  /** No two chapters share a key. */
  lemma ExportSize(m: ChapterMap)
    ensures |ExportKeys(m)| == |m|
  {
    var r := ExportKeys(m);
    IntToStringInjective();
    assert r.Keys == set k | k in m :: IntToString(k);
    ImageSize(m.Keys, r.Keys);
  }

  lemma {:induction false} ImageSize(ks: set<int>, ss: set<string>)
    requires ss == set k | k in ks :: IntToString(k)
    ensures |ss| == |ks|
    decreases |ks|
  {
    if ks != {} {
      var k := PickOne(ks);
      var ks' := ks - {k};
      var ss' := set j | j in ks' :: IntToString(j);
      IntToStringInjective();
      assert ss == ss' + {IntToString(k)};
      assert IntToString(k) !in ss';
      ImageSize(ks', ss');
    } else {
      assert ss == {};
    }
  }

  /** Key and value pairs, in order. */
  type Members = seq<(string, string)>

  /** The key of member `i`. */
  function KeyAt(ms: Members, i: nat): string
    requires i < |ms|
  {
    ms[i].0
  }

  /** No key occurs twice. */
  predicate DistinctKeys(ms: Members) {
    forall i, j :: 0 <= i < j < |ms| ==> KeyAt(ms, i) != KeyAt(ms, j)
  }

  /** The items of a dict that `json.loads` built from a JSON object, in the
      dict's order: each key once, where it first appeared in the text, with
      the value it was last given there. */
  type Dict = ms: Members | DistinctKeys(ms)

  /** The fields `import_project` reads, each absent or present. Values are
      taken to be strings and the three chapter fields to be objects. */
  datatype Document = Document(
    outlineRaw: Option<string>,
    outlineChapterList: Option<string>,
    chapterPlans: Option<Dict>,
    chapterTexts: Option<Dict>,
    chapterHighlights: Option<Dict>
  )

  /** What `json.loads` made of the uploaded text. */
  datatype Loaded =
    | Unparseable          // `json.loads` raised
    | NotAnObject          // valid JSON, but not an object: `data.get` raises
    | Object(doc: Document)

  datatype ImportStatus =
    | Imported   // the state now holds the file
    | JsonError  // the parse error was caught and reported
    | Raised     // an exception escaped `import_project`

  datatype ImportOutcome = ImportOutcome(state: Project, status: ImportStatus)

  /** Every member's key is accepted by `int()`. */
  predicate AllKeysParse(ms: Members) {
    forall i :: 0 <= i < |ms| ==> ParseInt(ms[i].0).Some?
  }

  /** Reference definition: the value of the last member whose key parses to `k`. */
  function LastValue(ms: Members, k: int): (r: Option<string>)
    ensures r.Some? ==> exists i :: IsLastNaming(ms, k, i) && ms[i].1 == r.value
    ensures r.None? ==> forall i :: 0 <= i < |ms| ==> ParseInt(ms[i].0) != Some(k)
  {
    if ms == [] then None
    else if ParseInt(ms[|ms| - 1].0) == Some(k) then
      assert IsLastNaming(ms, k, |ms| - 1);
      Some(ms[|ms| - 1].1)
    else
      var r := LastValue(ms[..|ms| - 1], k);
      LastValueSkips(ms, ms[..|ms| - 1], k, r);
      r
  }

  /** Member `i` is the last one whose key `int()` reads as `k`. */
  predicate IsLastNaming(ms: Members, k: int, i: int) {
    && 0 <= i < |ms|
    && ParseInt(ms[i].0) == Some(k)
    && forall j :: i < j < |ms| ==> ParseInt(ms[j].0) != Some(k)
  }

  /** A last member that does not name `k` leaves the answer for `k` to the
      members before it. */
  lemma LastValueSkips(ms: Members, init: Members, k: int, r: Option<string>)
    requires |ms| == |init| + 1
    requires forall i :: 0 <= i < |init| ==> init[i] == ms[i]
    requires ParseInt(ms[|ms| - 1].0) != Some(k)
    requires r.Some? ==> exists i :: IsLastNaming(init, k, i) && init[i].1 == r.value
    requires r.None? ==> forall i :: 0 <= i < |init| ==> ParseInt(init[i].0) != Some(k)
    ensures r.Some? ==> exists i :: IsLastNaming(ms, k, i) && ms[i].1 == r.value
    ensures r.None? ==> forall i :: 0 <= i < |ms| ==> ParseInt(ms[i].0) != Some(k)
  {
    if r.Some? {
      var i :| IsLastNaming(init, k, i) && init[i].1 == r.value;
      LastNamingExtends(ms, init, k, i);
    } else {
      forall i | 0 <= i < |ms|
        ensures ParseInt(ms[i].0) != Some(k)
      {
        if i < |init| {
          assert init[i] == ms[i];
        }
      }
    }
  }

  lemma LastNamingExtends(ms: Members, init: Members, k: int, i: int)
    requires |ms| == |init| + 1
    requires forall j :: 0 <= j < |init| ==> init[j] == ms[j]
    requires ParseInt(ms[|ms| - 1].0) != Some(k)
    requires IsLastNaming(init, k, i)
    ensures IsLastNaming(ms, k, i) && ms[i] == init[i]
  {
    forall j | i < j < |ms|
      ensures ParseInt(ms[j].0) != Some(k)
    {
      if j < |init| {
        assert init[j] == ms[j];
      }
    }
  }

  /** `{int(k): v for k, v in ms.items()}`: `None` when some key makes `int()`
      raise; otherwise each chapter holds the value of the last member naming it. */
  function IntKeys(ms: Members): (r: Option<ChapterMap>)
    ensures r.Some? <==> AllKeysParse(ms)
    ensures r.Some? ==> forall k :: LastValue(ms, k) == if k in r.value then Some(r.value[k]) else None
  {
    if ms == [] then Some(map[])
    else
      var init := ms[..|ms| - 1];
      var prev := IntKeys(init);
      var key := ParseInt(ms[|ms| - 1].0);
      PrefixKeysParse(ms);
      if prev.None? || key.None? then None
      else
        var r := prev.value[key.value := ms[|ms| - 1].1];
        LastValueStep(ms, prev.value, key.value, r);
        Some(r)
  }

  lemma PrefixKeysParse(ms: Members)
    requires ms != []
    ensures AllKeysParse(ms) <==>
      AllKeysParse(ms[..|ms| - 1]) && ParseInt(ms[|ms| - 1].0).Some?
  {
    var init := ms[..|ms| - 1];
    assert forall i :: 0 <= i < |init| ==> init[i] == ms[i];
  }

  lemma LastValueStep(ms: Members, prev: ChapterMap, key: int, r: ChapterMap)
    requires ms != []
    requires forall k :: LastValue(ms[..|ms| - 1], k) == if k in prev then Some(prev[k]) else None
    requires ParseInt(ms[|ms| - 1].0) == Some(key)
    requires r == prev[key := ms[|ms| - 1].1]
    ensures forall k :: LastValue(ms, k) == if k in r then Some(r[k]) else None
  {
    forall k
      ensures LastValue(ms, k) == if k in r then Some(r[k]) else None
    {
      if k != key {
        assert LastValue(ms, k) == LastValue(ms[..|ms| - 1], k);
      }
    }
  }

  /** `import_project(json_str)` applied to state `p`. */
  function Import(p: Project, loaded: Loaded): (o: ImportOutcome)
    ensures o.status == JsonError <==> loaded.Unparseable?
    ensures !loaded.Object? ==> o.state == p
    ensures loaded.Object? ==>
      var d := loaded.doc;
      && o.state.outlineRaw == d.outlineRaw.GetOr("")
      && o.state.outlineChapterList == d.outlineChapterList.GetOr("")
      && (o.status == Imported <==>
           && AllKeysParse(d.chapterPlans.GetOr([]))
           && AllKeysParse(d.chapterTexts.GetOr([]))
           && AllKeysParse(d.chapterHighlights.GetOr([])))
    ensures o.status == Imported ==> loaded.Object?
    ensures o.status == Imported ==>
      var d := loaded.doc;
      && Some(o.state.chapterPlans) == IntKeys(d.chapterPlans.GetOr([]))
      && Some(o.state.chapterTexts) == IntKeys(d.chapterTexts.GetOr([]))
      && Some(o.state.chapterHighlights) == IntKeys(d.chapterHighlights.GetOr([]))
      && IsLastChapterOf(o.state.chapterTexts, o.state.lastChapter)
    ensures o.status == Raised ==>
      && o.state.chapterHighlights == p.chapterHighlights
      && o.state.lastChapter == p.lastChapter
    // The three maps are assigned in turn: those before the first key that
    // makes `int()` raise are already replaced, that one and the rest are not.
    ensures o.status == Raised && loaded.Object? ==>
      var plans := IntKeys(loaded.doc.chapterPlans.GetOr([]));
      var texts := IntKeys(loaded.doc.chapterTexts.GetOr([]));
      && (plans.None? ==> o.state.chapterPlans == p.chapterPlans && o.state.chapterTexts == p.chapterTexts)
      && (plans.Some? ==> o.state.chapterPlans == plans.value)
      && (plans.Some? && texts.None? ==> o.state.chapterTexts == p.chapterTexts)
      && (plans.Some? && texts.Some? ==> o.state.chapterTexts == texts.value)
  {
    match loaded
    case Unparseable => ImportOutcome(p, JsonError)
    case NotAnObject => ImportOutcome(p, Raised)
    case Object(d) =>
      var p1 := p.(outlineRaw := d.outlineRaw.GetOr(""),
                   outlineChapterList := d.outlineChapterList.GetOr(""));
      var plans := IntKeys(d.chapterPlans.GetOr([]));
      if plans.None? then ImportOutcome(p1, Raised)
      else
        var p2 := p1.(chapterPlans := plans.value);
        var texts := IntKeys(d.chapterTexts.GetOr([]));
        if texts.None? then ImportOutcome(p2, Raised)
        else
          var p3 := p2.(chapterTexts := texts.value);
          var highlights := IntKeys(d.chapterHighlights.GetOr([]));
          if highlights.None? then ImportOutcome(p3, Raised)
          else
            ImportOutcome(p3.(chapterHighlights := highlights.value,
                              lastChapter := LastChapterOf(texts.value)), Imported)
  }

  /** `ms` lists exactly the entries of `saved`, in some order. */
  predicate Enumerates(ms: Members, saved: map<string, string>) {
    && (forall i :: 0 <= i < |ms| ==> ms[i].0 in saved && saved[ms[i].0] == ms[i].1)
    && (forall s :: s in saved ==> exists i :: 0 <= i < |ms| && ms[i].0 == s)
  }

  /** `doc` is what `json.loads` gives back for the text `json.dumps` wrote
      for `saved`: every field present, every object in some member order. */
  predicate ReadsBack(doc: Document, saved: SavedProject) {
    && doc.outlineRaw == Some(saved.outlineRaw)
    && doc.outlineChapterList == Some(saved.outlineChapterList)
    && doc.chapterPlans.Some? && Enumerates(doc.chapterPlans.value, saved.chapterPlans)
    && doc.chapterTexts.Some? && Enumerates(doc.chapterTexts.value, saved.chapterTexts)
    && doc.chapterHighlights.Some? && Enumerates(doc.chapterHighlights.value, saved.chapterHighlights)
  }

  lemma {:induction false} LastValueOfExport(m: ChapterMap, ms: Members, k: int)
    requires forall i :: 0 <= i < |ms| ==> ms[i].0 in ExportKeys(m) && ExportKeys(m)[ms[i].0] == ms[i].1
    ensures LastValue(ms, k).Some? ==> k in m && LastValue(ms, k).value == m[k]
    decreases |ms|
  {
    if ms != [] {
      var init := ms[..|ms| - 1];
      assert forall i :: 0 <= i < |init| ==> init[i] == ms[i];
      LastValueOfExport(m, init, k);
    }
  }

  lemma {:induction false} LastValueFound(ms: Members, k: int, i: int)
    requires 0 <= i < |ms| && ParseInt(ms[i].0) == Some(k)
    ensures LastValue(ms, k).Some?
    decreases |ms|
  {
    if i < |ms| - 1 && ParseInt(ms[|ms| - 1].0) != Some(k) {
      var init := ms[..|ms| - 1];
      assert init[i] == ms[i];
      LastValueFound(init, k, i);
    }
  }

  /** Writing the chapter keys with `str` and reading them with `int` gives
      back the same chapter map, whatever order the members come in. */
  lemma KeysRoundTrip(m: ChapterMap, ms: Members)
    requires Enumerates(ms, ExportKeys(m))
    ensures IntKeys(ms) == Some(m)
  {
    ExportedKeysParse(m, ms);
    var r := IntKeys(ms).value;
    forall k | k in r
      ensures k in m && r[k] == m[k]
    {
      ReadKeyWasWritten(m, ms, k, r);
    }
    forall k | k in m
      ensures k in r
    {
      WrittenKeyIsRead(m, ms, k, r);
    }
    SameEntries(r, m);
  }

  lemma SameEntries(r: ChapterMap, m: ChapterMap)
    requires forall k :: k in r ==> k in m && r[k] == m[k]
    requires forall k :: k in m ==> k in r
    ensures r == m
  {
    forall k | k in r.Keys ensures k in m.Keys { }
    forall k | k in m.Keys ensures k in r.Keys { }
    assert r.Keys == m.Keys;
    forall k | k in r ensures r[k] == m[k] { }
  }

  lemma ExportedKeysParse(m: ChapterMap, ms: Members)
    requires Enumerates(ms, ExportKeys(m))
    ensures AllKeysParse(ms)
  {
    forall i | 0 <= i < |ms|
      ensures ParseInt(ms[i].0).Some?
    {
      assert ms[i].0 in ExportKeys(m);
    }
  }

  lemma ReadKeyWasWritten(m: ChapterMap, ms: Members, k: int, r: ChapterMap)
    requires Enumerates(ms, ExportKeys(m))
    requires IntKeys(ms) == Some(r) && k in r
    ensures k in m && r[k] == m[k]
  {
    assert LastValue(ms, k) == Some(r[k]);
    LastValueOfExport(m, ms, k);
  }

  lemma WrittenKeyIsRead(m: ChapterMap, ms: Members, k: int, r: ChapterMap)
    requires Enumerates(ms, ExportKeys(m))
    requires IntKeys(ms) == Some(r) && k in m
    ensures k in r
  {
    var s := IntToString(k);
    assert s in ExportKeys(m);
    var i :| 0 <= i < |ms| && ms[i].0 == s;
    IntRoundTrip(k);
    LastValueFound(ms, k, i);
  }

  /** Saving a project and loading the file into any state restores the
      project, except that the last chapter becomes the largest saved one. */
  lemma SaveLoadRoundTrip(p: Project, q: Project, doc: Document)
    requires ReadsBack(doc, Export(p))
    ensures Import(q, Object(doc)) ==
      ImportOutcome(p.(lastChapter := LastChapterOf(p.chapterTexts)), Imported)
  {
    KeysRoundTrip(p.chapterPlans, doc.chapterPlans.value);
    KeysRoundTrip(p.chapterTexts, doc.chapterTexts.value);
    KeysRoundTrip(p.chapterHighlights, doc.chapterHighlights.value);
    ImportOfReadableDocument(q, doc, p.chapterPlans, p.chapterTexts, p.chapterHighlights);
  }

  lemma ImportOfReadableDocument(q: Project, d: Document, plans: ChapterMap, texts: ChapterMap, highlights: ChapterMap)
    requires IntKeys(d.chapterPlans.GetOr([])) == Some(plans)
    requires IntKeys(d.chapterTexts.GetOr([])) == Some(texts)
    requires IntKeys(d.chapterHighlights.GetOr([])) == Some(highlights)
    ensures Import(q, Object(d)) == ImportOutcome(
      Project(d.outlineRaw.GetOr(""), d.outlineChapterList.GetOr(""), plans, texts, highlights, LastChapterOf(texts)),
      Imported)
  {
  }

  /** The last chapter a map determines is unique. */
  lemma LastChapterUnique(texts: ChapterMap, a: int, b: int)
    requires IsLastChapterOf(texts, a) && IsLastChapterOf(texts, b)
    ensures a == b
  {
  }

  /** A project whose last chapter is already its largest (or 1 with no chapters)
      survives a save and load unchanged. */
  lemma SaveLoadIdentity(p: Project, q: Project, doc: Document)
    requires IsLastChapterOf(p.chapterTexts, p.lastChapter)
    requires ReadsBack(doc, Export(p))
    ensures Import(q, Object(doc)) == ImportOutcome(p, Imported)
  {
    SaveLoadRoundTrip(p, q, doc);
    LastChapterUnique(p.chapterTexts, p.lastChapter, LastChapterOf(p.chapterTexts));
  }

  /** A fresh session (`init_state`) saved and loaded again, into whatever
      state, is the fresh session: its last chapter 1 is what the import
      computes for no chapters. */
  lemma FreshSessionSurvivesSaveLoad(q: Project, doc: Document)
    requires ReadsBack(doc, Export(Initial))
    ensures Import(q, Object(doc)) == ImportOutcome(Initial, Imported)
  {
    SaveLoadIdentity(Initial, q, doc);
  }

  /** A key new to a dict, added at its end, overrides whatever the chapter
      it names held before. */
  lemma LaterMemberOverrides(ms: Members, key: string, v: string, k: int)
    requires forall i :: 0 <= i < |ms| ==> ms[i].0 != key
    requires IntKeys(ms).Some? && ParseInt(key) == Some(k)
    ensures IntKeys(ms + [(key, v)]) == Some(IntKeys(ms).value[k := v])
  {
    assert (ms + [(key, v)])[..|ms|] == ms;
  }

  /** A hand-edited file may name a chapter with two keys, `"1"` and `"01"`;
      the key that comes later in the dict wins. */
  lemma LaterMemberWins(x: string, y: string)
    ensures IntKeys([("1", x), ("01", y)]) == Some(map[1 := y])
  {
    LeadingZeroKeyCollides();
    var first: Members := [("1", x)];
    assert first[..0] == [];
    assert IntKeys(first) == Some(map[1 := x]);
    LaterMemberOverrides(first, "01", y, 1);
    assert first + [("01", y)] == [("1", x), ("01", y)];
    assert map[1 := x][1 := y] == map[1 := y];
  }
}

=== FILE: pyint.dfy ===
/** Python's `str(k)` and `int(s)` on integers, the pair the project file uses
    to turn chapter numbers into JSON object keys and back. */
module PyInt {
  import opened Wrappers
  import opened PyText

  predicate IsDigit(c: char) {
    '0' <= c <= '9'
  }

  function DigitChar(d: nat): (c: char)
    requires d < 10
    ensures IsDigit(c)
  {
    "0123456789"[d]
  }

  function DigitValue(c: char): (d: nat)
    requires IsDigit(c)
    ensures d < 10
  {
    (c as int - '0' as int) as nat
  }

  lemma DigitRoundTrip(d: nat)
    requires d < 10
    ensures DigitValue(DigitChar(d)) == d
  {
  }

  predicate AllDigits(s: string) {
    forall i :: 0 <= i < |s| ==> IsDigit(s[i])
  }

  /** The decimal digits of `n`, most significant first, without leading zeros. */
  function NatToDigits(n: nat): (r: string)
    ensures |r| >= 1 && AllDigits(r)
    ensures r[0] == '0' ==> n == 0
    decreases n
  {
    if n < 10 then [DigitChar(n)]
    else NatToDigits(n / 10) + [DigitChar(n % 10)]
  }

  /** `str(k)` */
  function IntToString(k: int): (r: string)
    ensures |r| >= 1
    ensures forall i :: 0 <= i < |r| ==> IsDigit(r[i]) || (i == 0 && r[i] == '-')
    ensures r[0] == '-' <==> k < 0
  {
    if k < 0 then "-" + NatToDigits(-k) else NatToDigits(k)
  }

  /** The body `int()` accepts after the sign: ASCII digits, optionally grouped by
      single underscores that neither start nor end the body. Leading zeros are allowed. */
  predicate IsDigitGroups(b: string) {
    && |b| > 0
    && IsDigit(b[0])
    && IsDigit(b[|b| - 1])
    && (forall i :: 0 <= i < |b| ==> IsDigit(b[i]) || b[i] == '_')
    && NoDoubleUnderscore(b)
  }

  /** No underscore directly follows another. */
  predicate NoDoubleUnderscore(b: string)
    decreases |b|
  {
    |b| < 2 || (!(b[0] == '_' && b[1] == '_') && NoDoubleUnderscore(b[1..]))
  }

  /** The number the digits of `b` spell, underscores ignored. */
  function GroupsValue(b: string): nat
    requires forall i :: 0 <= i < |b| ==> IsDigit(b[i]) || b[i] == '_'
  {
    if b == [] then 0
    else if b[|b| - 1] == '_' then GroupsValue(b[..|b| - 1])
    else GroupsValue(b[..|b| - 1]) * 10 + DigitValue(b[|b| - 1])
  }

  /** The characters `int()` skips around a number. `int()` first turns every
      non-ASCII whitespace character into a space and then strips ASCII
      whitespace only, so the four information separators U+001C..U+001F,
      which `str.isspace()` accepts, are kept and then rejected. */
  predicate IsIntSpace(c: char) {
    IsSpace(c) && !('\U{1C}' <= c <= '\U{1F}')
  }

  /** The leading characters `int()` skips. */
  function IntTrimStart(s: string): (r: string)
    ensures |r| <= |s|
    ensures r == [] || !IsIntSpace(r[0])
    decreases |s|
  {
    if |s| > 0 && IsIntSpace(s[0]) then IntTrimStart(s[1..]) else s
  }

  /** The trailing characters `int()` skips: what is left is a prefix. */
  function IntTrimEnd(s: string): (r: string)
    ensures |r| <= |s| && r == s[..|r|]
    ensures r == [] || !IsIntSpace(r[|r| - 1])
    decreases |s|
  {
    if |s| > 0 && IsIntSpace(s[|s| - 1]) then IntTrimEnd(s[..|s| - 1]) else s
  }

  /** The text `int()` reads the number from. */
  function IntStrip(s: string): (r: string)
    ensures r == [] || (!IsIntSpace(r[0]) && !IsIntSpace(r[|r| - 1]))
  {
    IntTrimEnd(IntTrimStart(s))
  }

  /** What `int()` skips at the front is whitespace it accepts. */
  lemma {:induction false} IntTrimStartDropsSpace(s: string)
    ensures forall i :: 0 <= i < |s| - |IntTrimStart(s)| ==> IsIntSpace(s[i])
    decreases |s|
  {
    if |s| > 0 && IsIntSpace(s[0]) {
      IntTrimStartDropsSpace(s[1..]);
      assert forall i :: 1 <= i < |s| ==> s[i] == s[1..][i - 1];
    }
  }

  /** What `int()` skips at the back is whitespace it accepts. */
  lemma {:induction false} IntTrimEndDropsSpace(s: string)
    ensures forall i :: |IntTrimEnd(s)| <= i < |s| ==> IsIntSpace(s[i])
    decreases |s|
  {
    if |s| > 0 && IsIntSpace(s[|s| - 1]) {
      var init := s[..|s| - 1];
      IntTrimEndDropsSpace(init);
      assert forall i :: 0 <= i < |s| - 1 ==> s[i] == init[i];
    }
  }

  /** A string with nothing for `int()` to skip at either end is read whole. */
  lemma IntStripOfUnpadded(s: string)
    requires s != [] && !IsIntSpace(s[0]) && !IsIntSpace(s[|s| - 1])
    ensures IntStrip(s) == s
  {
    assert IntTrimStart(s) == s;
  }

  /** `int(s)` for base 10: surrounding whitespace, one optional sign, then digit
      groups. `None` stands for the `ValueError` Python raises otherwise. */
  function ParseInt(s: string): (r: Option<int>)
    ensures s == [] ==> r.None?
  {
    var t := IntStrip(s);
    if |t| > 0 && (t[0] == '-' || t[0] == '+') then
      var b := t[1..];
      if IsDigitGroups(b) then
        var v: int := GroupsValue(b);
        Some(if t[0] == '-' then -v else v)
      else None
    else if IsDigitGroups(t) then Some(GroupsValue(t))
    else None
  }

  /** What `int()` accepts: the stripped key ends in a digit, and a negative
      number comes only from a key whose stripped form starts with `-`. */
  lemma ParseIntShape(s: string)
    ensures ParseInt(s).Some? ==> var t := IntStrip(s); t != [] && IsDigit(t[|t| - 1])
    ensures ParseInt(s).Some? && ParseInt(s).value < 0 ==> IntStrip(s)[0] == '-'
  {
  }

  /** `int()` rejects a key led by an information separator, although
      `str.strip()` would remove it. */
  lemma SeparatorKeyRejected(b: string)
    requires b != [] && IsDigit(b[|b| - 1])
    ensures Strip(['\U{1C}'] + b) == Strip(b)
    ensures ParseInt(['\U{1C}'] + b) == None
  {
    var s := ['\U{1C}'] + b;
    assert s[1..] == b;
    assert s[|s| - 1] == b[|b| - 1];
    IntStripOfUnpadded(s);
  }

  lemma {:induction false} DigitsValue(n: nat)
    ensures GroupsValue(NatToDigits(n)) == n
    decreases n
  {
    var r := NatToDigits(n);
    if n < 10 {
      assert r[..0] == [];
      DigitRoundTrip(n);
    } else {
      DigitsValue(n / 10);
      assert r[..|r| - 1] == NatToDigits(n / 10);
      DigitRoundTrip(n % 10);
    }
  }

  /** `int(str(k)) == k` for every integer `k`. */
  lemma IntRoundTrip(k: int)
    ensures ParseInt(IntToString(k)) == Some(k)
  {
    if k < 0 {
      NegativeRoundTrip(-k);
    } else {
      NaturalRoundTrip(k);
    }
  }

  lemma DigitsAreGroups(d: string)
    requires |d| >= 1 && AllDigits(d)
    ensures IsDigitGroups(d)
  {
    DigitsHaveNoUnderscore(d);
  }

  lemma {:induction false} DigitsHaveNoUnderscore(d: string)
    requires AllDigits(d)
    ensures NoDoubleUnderscore(d)
    decreases |d|
  {
    if |d| >= 2 {
      assert AllDigits(d[1..]) by {
        assert forall i :: 0 <= i < |d| - 1 ==> d[1..][i] == d[i + 1];
      }
      DigitsHaveNoUnderscore(d[1..]);
    }
  }

  lemma NaturalRoundTrip(n: nat)
    ensures ParseInt(NatToDigits(n)) == Some(n)
  {
    var d := NatToDigits(n);
    DigitsAreGroups(d);
    ParseDigitGroups(d);
    DigitsValue(n);
  }

  /** `int(str(-n)) == -n` for a positive `n`: `str` writes a minus sign
      before the digits of `n`. */
  lemma NegativeRoundTrip(n: nat)
    requires n > 0
    ensures ParseInt("-" + NatToDigits(n)) == Some(-(n as int))
  {
    var d := NatToDigits(n);
    DigitsAreGroups(d);
    ParseMinusGroups(d);
    DigitsValue(n);
  }

  /** A minus sign followed by digit groups parses to the negated value. */
  lemma ParseMinusGroups(b: string)
    requires IsDigitGroups(b)
    ensures ParseInt("-" + b) == Some(-(GroupsValue(b) as int))
  {
    var t := "-" + b;
    assert t[|t| - 1] == b[|b| - 1];
    IntStripOfUnpadded(t);
    assert t[1..] == b;
  }

  /** Distinct integers render to distinct keys. */
  lemma IntToStringInjective()
    ensures forall a: int, b: int :: IntToString(a) == IntToString(b) ==> a == b
  {
    forall a: int, b: int | IntToString(a) == IntToString(b)
      ensures a == b
    {
      IntRoundTrip(a);
      IntRoundTrip(b);
    }
  }

  /** A bare digit-group body parses to the number it spells. */
  lemma ParseDigitGroups(s: string)
    requires IsDigitGroups(s)
    ensures ParseInt(s) == Some(GroupsValue(s) as int)
  {
    IntStripOfUnpadded(s);
  }

  /** `int()` accepts spellings `str()` never produces, so two different keys
      of a hand-edited file can name the same chapter. */
  lemma LeadingZeroKeyCollides()
    ensures ParseInt("01") == ParseInt("1") == Some(1)
  {
    IntRoundTrip(1);
    assert IsDigitGroups("01");
    assert GroupsValue("01") == 1 by {
      assert "01"[..1] == "0";
      assert "0"[..0] == [];
    }
    ParseDigitGroups("01");
  }
}

=== FILE: state.dfy ===
/** The session state the application keeps for one novel project. */
module SessionState {

  /** Chapter number to text. */
  type ChapterMap = map<int, string>

  datatype Project = Project(
    outlineRaw: string,           // the full book outline
    outlineChapterList: string,   // the chapter list, one `第N章 …` line per chapter
    chapterPlans: ChapterMap,     // kept for save/load only; the pages never write it
    chapterTexts: ChapterMap,     // each chapter's text
    chapterHighlights: ChapterMap, // each chapter's selling points
    lastChapter: int              // the chapter most recently written
  )

  /** The state `init_state` gives a fresh session. */
  const Initial := Project("", "", map[], map[], map[], 1)

  /** `d.get(chap, "")` */
  function TextOr(m: ChapterMap, chap: int): (r: string)
    ensures chap !in m ==> r == ""
    ensures chap in m ==> r == m[chap]
  {
    if chap in m then m[chap] else ""
  }

  /** `last` is what the import computes from a chapter-text map: its largest
      chapter number, or 1 when the map is empty. */
  predicate IsLastChapterOf(texts: ChapterMap, last: int) {
    if texts == map[] then last == 1
    else last in texts && forall k :: k in texts ==> k <= last
  }

  lemma {:induction false} MaxExists(s: set<int>)
    requires s != {}
    ensures exists m :: m in s && forall k :: k in s ==> k <= m
    decreases |s|
  {
    var x := PickOne(s);
    var rest := s - {x};
    assert forall k :: k in s ==> k == x || k in rest;
    if forall y :: y !in rest {
      assert forall k :: k in s ==> k <= x;
    } else {
      MaxExists(rest);
      var m :| m in rest && forall k :: k in rest ==> k <= m;
      var top := if x > m then x else m;
      assert forall k :: k in s ==> k <= top;
    }
  }

  /** Some element of a non-empty set. */
  lemma PickOne(s: set<int>) returns (x: int)
    requires s != {}
    ensures x in s
  {
    if forall y :: y !in s {
      assert false;
    }
    x :| x in s;
  }

  /** `max(texts.keys())` if `texts` else `1`. */
  function LastChapterOf(texts: ChapterMap): (last: int)
    ensures IsLastChapterOf(texts, last)
  {
    if texts == map[] then 1
    else
      MaxExists(texts.Keys);
      var m :| m in texts && forall k :: k in texts ==> k <= m;
      m
  }
}

=== FILE: text.dfy ===
/** The pieces of Python's `str` behaviour the application relies on:
    `isspace`/`strip`, `splitlines`, `startswith`, the `in` substring test
    and the two slice forms `s[:n]` and `s[-n:]`. */
module PyText {

  /** Python's `str.isspace()`: the Unicode White_Space characters plus the
      four ASCII information separators U+001C..U+001F. */
  predicate IsSpace(c: char)
    ensures IsLineBreak(c) ==> IsSpace(c)
  {
    || ('\t' <= c <= '\r')
    || ('\U{1C}' <= c <= '\U{1F}')
    || c == ' '
    || c == '\U{85}'
    || c == '\U{A0}'
    || c == '\U{1680}'
    || ('\U{2000}' <= c <= '\U{200A}')
    || c == '\U{2028}'
    || c == '\U{2029}'
    || c == '\U{202F}'
    || c == '\U{205F}'
    || c == '\U{3000}'
  }

  /** The characters at which Python's `str.splitlines()` breaks a line. */
  predicate IsLineBreak(c: char) {
    || ('\n' <= c <= '\r')
    || ('\U{1C}' <= c <= '\U{1E}')
    || c == '\U{85}'
    || c == '\U{2028}'
    || c == '\U{2029}'
  }

  predicate AllSpace(s: string) {
    forall i :: 0 <= i < |s| ==> IsSpace(s[i])
  }

  predicate NoLineBreak(s: string) {
    forall i :: 0 <= i < |s| ==> !IsLineBreak(s[i])
  }

  /** `s.startswith(p)` */
  predicate StartsWith(s: string, p: string) {
    |p| <= |s| && s[..|p|] == p
  }

  /** `s.endswith(t)`, stated character by character. */
  predicate EndsWith(s: string, t: string) {
    |t| <= |s| && forall i :: 0 <= i < |t| ==> t[i] == s[|s| - |t| + i]
  }

  /** `s.lstrip()`: no longer than `s`, and empty or starting with a non-space. */
  function TrimStart(s: string): (r: string)
    ensures |r| <= |s|
    ensures r == [] || !IsSpace(r[0])
    decreases |s|
  {
    if |s| > 0 && IsSpace(s[0]) then TrimStart(s[1..]) else s
  }

  /** What `lstrip` keeps is a suffix of `s`. */
  lemma {:induction false} TrimStartIsSuffix(s: string)
    ensures EndsWith(s, TrimStart(s))
    decreases |s|
  {
    if |s| > 0 && IsSpace(s[0]) {
      TrimStartIsSuffix(s[1..]);
    }
  }

  /** `s.rstrip()`: a prefix of `s` that is empty or ends with a non-space. */
  function TrimEnd(s: string): (r: string)
    ensures |r| <= |s| && r == s[..|r|]
    ensures r == [] || !IsSpace(r[|r| - 1])
    decreases |s|
  {
    if |s| > 0 && IsSpace(s[|s| - 1]) then TrimEnd(s[..|s| - 1]) else s
  }

  /** What `lstrip` drops is whitespace. */
  lemma {:induction false} TrimStartDropsSpace(s: string)
    ensures forall i :: 0 <= i < |s| - |TrimStart(s)| ==> IsSpace(s[i])
    decreases |s|
  {
    if |s| > 0 && IsSpace(s[0]) {
      TrimStartDropsSpace(s[1..]);
      assert forall i :: 1 <= i < |s| ==> s[i] == s[1..][i - 1];
    }
  }

  /** What `rstrip` drops is whitespace. */
  lemma {:induction false} TrimEndDropsSpace(s: string)
    ensures forall i :: |TrimEnd(s)| <= i < |s| ==> IsSpace(s[i])
    decreases |s|
  {
    if |s| > 0 && IsSpace(s[|s| - 1]) {
      var init := s[..|s| - 1];
      TrimEndDropsSpace(init);
      assert forall i :: 0 <= i < |s| - 1 ==> s[i] == init[i];
    }
  }

  /** `t` occurs in `s` starting at offset `i`. */
  predicate OccursAt(s: string, t: string, i: int) {
    0 <= i <= |s| - |t| && forall j :: 0 <= j < |t| ==> s[i + j] == t[j]
  }

  /** `s.strip()` */
  function Strip(s: string): (r: string)
    ensures r == [] || (!IsSpace(r[0]) && !IsSpace(r[|r| - 1]))
  {
    TrimEnd(TrimStart(s))
  }

  /** What `strip` removes is whitespace only: the result is `s` itself with
      whitespace cut from both ends, and it is empty exactly when `s` is all
      whitespace. */
  lemma StripFacts(s: string)
    ensures Strip(s) == [] <==> AllSpace(s)
    ensures OccursAt(s, Strip(s), |s| - |TrimStart(s)|)
  {
    TrimmedAwayOnlyIfBlank(s);
    TrimmedIsInfix(s);
  }

  lemma TrimmedIsInfix(s: string)
    ensures OccursAt(s, TrimEnd(TrimStart(s)), |s| - |TrimStart(s)|)
  {
    var t := TrimStart(s);
    var r := TrimEnd(t);
    TrimStartIsSuffix(s);
    assert forall j :: 0 <= j < |r| ==> r[j] == t[..|r|][j] == t[j];
  }

  lemma TrimmedAwayOnlyIfBlank(s: string)
    ensures TrimEnd(TrimStart(s)) == [] ==> AllSpace(s)
  {
    var t := TrimStart(s);
    if TrimEnd(t) == [] {
      TrimStartIsSuffix(s);
      TrimEndDropsSpace(t);
      TrimStartDropsSpace(s);
      assert t == [];
    }
  }

  /** Stripping a single line leaves a single line. */
  lemma StripKeepsNoLineBreak(s: string)
    requires NoLineBreak(s)
    ensures NoLineBreak(Strip(s))
  {
    StripFacts(s);
  }

  /** The first line of `a + "\n" + b` is `a` when `a` holds no line break. */
  lemma {:induction false} SplitFirstLine(a: string, b: string)
    requires NoLineBreak(a)
    ensures SplitLines(a + "\n" + b)[0] == a
    decreases |a|
  {
    var s := a + "\n" + b;
    if a != [] {
      assert s[1..] == a[1..] + "\n" + b;
      SplitFirstLine(a[1..], b);
      assert !IsLineBreak(s[0]);
    }
  }

  /** The test `not s.strip()`. */
  predicate IsBlank(s: string)
    ensures IsBlank(s) <==> AllSpace(s)
  {
    StripFacts(s);
    Strip(s) == []
  }

  /** Stripping is idempotent. */
  lemma StripIdempotent(s: string)
    ensures Strip(Strip(s)) == Strip(s)
  {
    var r := Strip(s);
    if r != [] {
      assert TrimStart(r) == r;
      assert TrimEnd(r) == r;
    }
  }

  /** A string with no whitespace at either end is its own strip. */
  lemma StripOfUnpadded(s: string)
    requires s != [] && !IsSpace(s[0]) && !IsSpace(s[|s| - 1])
    ensures Strip(s) == s
  {
    assert TrimStart(s) == s;
  }

  /** `t in s`, Python's substring test. */
  predicate Contains(s: string, t: string)
    ensures Contains(s, t) ==> |t| <= |s|
    ensures t == [] ==> Contains(s, t)
    decreases |s|
  {
    StartsWith(s, t) || (|s| > 0 && Contains(s[1..], t))
  }

  /** `Contains` finds exactly the occurrences at some offset. */
  lemma {:induction false} ContainsAt(s: string, t: string)
    ensures Contains(s, t) <==> exists i :: OccursAt(s, t, i)
    decreases |s|
  {
    if StartsWith(s, t) {
      assert OccursAt(s, t, 0);
    } else if |s| == 0 {
    } else {
      ContainsAt(s[1..], t);
      if exists i :: OccursAt(s, t, i) {
        var i :| OccursAt(s, t, i);
        assert i != 0;
        assert OccursAt(s[1..], t, i - 1);
      }
      if Contains(s[1..], t) {
        var i :| OccursAt(s[1..], t, i);
        assert OccursAt(s, t, i + 1);
      }
    }
  }

  /** The separators that `SplitLines` removes, in order. */
  function Breaks(s: string): (seps: string)
    ensures forall i :: 0 <= i < |seps| ==> IsLineBreak(seps[i])
  {
    if s == [] then []
    else if IsLineBreak(s[0]) then [s[0]] + Breaks(s[1..])
    else Breaks(s[1..])
  }

  /** `lines[0] + seps[0] + lines[1] + ... + seps[n-1] + lines[n]`. */
  function Interleave(lines: seq<string>, seps: string): string
    requires |lines| == |seps| + 1
  {
    if |seps| == 0 then lines[0]
    else lines[0] + [seps[0]] + Interleave(lines[1..], seps[1..])
  }

  /** `s.splitlines()`, except that every line-boundary character ends a line on
      its own: `"\r\n"` yields an extra empty line and a trailing boundary yields a
      trailing empty line. Callers that skip blank lines see no difference. The
      split is exact: putting the separators back gives `s` again. */
  function SplitLines(s: string): (lines: seq<string>)
    ensures |lines| >= 1
    ensures forall i :: 0 <= i < |lines| ==> NoLineBreak(lines[i])
    decreases |s|
  {
    if s == [] then [""]
    else
      var rest := SplitLines(s[1..]);
      if IsLineBreak(s[0]) then [""] + rest
      else
        var lines := [[s[0]] + rest[0]] + rest[1..];
        assert forall i :: 1 <= i < |lines| ==> lines[i] == rest[i - 1 + 1];
        lines
  }

  /** The split loses nothing: putting the separators back between the lines
      gives `s` again, one line more than there are separators. */
  lemma {:induction false} SplitLinesRoundTrip(s: string)
    ensures |SplitLines(s)| == |Breaks(s)| + 1
    ensures Interleave(SplitLines(s), Breaks(s)) == s
    decreases |s|
  {
    if s != [] {
      SplitLinesRoundTrip(s[1..]);
      var rest := SplitLines(s[1..]);
      assert s == [s[0]] + s[1..];
      if !IsLineBreak(s[0]) {
        InterleaveConsFirst(rest, Breaks(s[1..]), s[0]);
      }
    }
  }

  lemma InterleaveConsFirst(lines: seq<string>, seps: string, c: char)
    requires |lines| == |seps| + 1
    ensures Interleave([[c] + lines[0]] + lines[1..], seps) == [c] + Interleave(lines, seps)
  {
    var lines' := [[c] + lines[0]] + lines[1..];
    assert lines'[1..] == lines[1..];
  }

  /** Python's `s[:n]` for a non-negative `n`: the first `min(n, |s|)` characters. */
  function Head(s: string, n: nat): (r: string)
    ensures |r| == if n < |s| then n else |s|
    ensures StartsWith(s, r)
  {
    if n < |s| then s[..n] else s
  }

  /** Python's `s[-n:]` for a non-negative `n`. Note `s[-0:]` is all of `s`. */
  function Tail(s: string, n: nat): (r: string)
    ensures n > 0 ==> |r| == if n < |s| then n else |s|
    ensures n == 0 ==> r == s
    ensures |r| <= |s|
  {
    if n == 0 || n >= |s| then s else s[|s| - n..]
  }

  /** `s[-n:]` is a suffix of `s`. */
  lemma TailIsSuffix(s: string, n: nat)
    ensures EndsWith(s, Tail(s, n))
  {
  }
}

=== FILE: word_target.dfy ===
/** `parse_word_target`: the choice chosen in the length menu becomes the
    character range the prompt asks the model to hit. */
module WordTarget {
  import opened PyText

  datatype Range = Range(minWords: int, maxWords: int)

  /** The substrings looked for in the choice, with their ranges, in the order
      the `if` chain looks for them. */
  const Table: seq<(string, Range)> := [
    ("1500", Range(1300, 1800)),
    ("2200", Range(1900, 2600)),
    ("3000", Range(2600, 3400)),
    ("4000", Range(3500, 4500))
  ]

  /** The range for a choice that contains none of the table's substrings. */
  const Fallback := Range(1500, 2500)

  /** The four entries of the length menu. */
  const MenuLabels: seq<string> := ["1500字左右", "2200字左右", "3000字左右", "4000字左右"]

  /** Reference definition: the range of the first table entry whose key
      occurs in `choice`, else `Fallback`. */
  function FirstMatch(table: seq<(string, Range)>, choice: string): (r: Range)
    ensures (forall i :: 0 <= i < |table| ==> !Contains(choice, table[i].0)) ==> r == Fallback
    ensures forall i :: 0 <= i < |table| && Contains(choice, table[i].0) ==>
      exists j :: 0 <= j <= i && r == table[j].1 && Contains(choice, table[j].0)
  {
    var k := FirstHit(table, choice, 0);
    if k < |table| then table[k].1 else Fallback
  }

  /** The first entry from `n` on whose key occurs in `choice`, or `|table|`
      when there is none. */
  function FirstHit(table: seq<(string, Range)>, choice: string, n: nat): (k: nat)
    requires n <= |table|
    ensures n <= k <= |table|
    ensures k < |table| ==> Contains(choice, table[k].0)
    ensures forall i :: n <= i < k ==> !Contains(choice, table[i].0)
    decreases |table| - n
  {
    if n == |table| || Contains(choice, table[n].0) then n
    else FirstHit(table, choice, n + 1)
  }

  function ParseWordTarget(choice: string): (r: Range)
    ensures 0 < r.minWords < r.maxWords
    ensures Contains(choice, "1500") ==> r == Range(1300, 1800)
  {
    if Contains(choice, "1500") then Range(1300, 1800)
    else if Contains(choice, "2200") then Range(1900, 2600)
    else if Contains(choice, "3000") then Range(2600, 3400)
    else if Contains(choice, "4000") then Range(3500, 4500)
    else Range(1500, 2500)
  }

  /** `parse_word_target` is the first-match lookup over `Table`: a label
      mentioning several amounts gets the range of the earliest test, and a
      label mentioning none gets `Fallback`. */
  lemma ParseIsFirstMatch(choice: string)
    ensures ParseWordTarget(choice) == FirstMatch(Table, choice)
  {
    assert FirstHit(Table, choice, 3) == if Contains(choice, "4000") then 3 else 4;
    assert FirstHit(Table, choice, 2) == if Contains(choice, "3000") then 2 else FirstHit(Table, choice, 3);
    assert FirstHit(Table, choice, 1) == if Contains(choice, "2200") then 1 else FirstHit(Table, choice, 2);
  }

  /** The amount each menu entry names. */
  const MenuAmounts: seq<int> := [1500, 2200, 3000, 4000]

  /** Each menu entry gets a range that contains the amount it names. */
  lemma MenuLabelsInRange()
    ensures forall i :: 0 <= i < |MenuLabels| ==>
      var r := ParseWordTarget(MenuLabels[i]);
      r.minWords <= MenuAmounts[i] <= r.maxWords
  {
    forall i | 0 <= i < |MenuLabels|
      ensures var r := ParseWordTarget(MenuLabels[i]);
        r.minWords <= MenuAmounts[i] <= r.maxWords
    {
      if i == 0 {
        Menu0();
      } else if i == 1 {
        Menu1();
      } else if i == 2 {
        Menu2();
      } else {
        Menu3();
      }
    }
  }

  lemma Menu0()
    ensures ParseWordTarget("1500字左右") == Range(1300, 1800)
  {
    assert StartsWith("1500字左右", "1500");
  }

  lemma Menu1()
    ensures ParseWordTarget("2200字左右") == Range(1900, 2600)
  {
    LedBy2200("2200字左右");
  }

  lemma Menu2()
    ensures ParseWordTarget("3000字左右") == Range(2600, 3400)
  {
    LedBy3000("3000字左右");
  }

  lemma Menu3()
    ensures ParseWordTarget("4000字左右") == Range(3500, 4500)
  {
    LedBy4000("4000字左右");
  }

  /** A choice that starts with `2200` and holds no `1` gets the 2200 range. */
  lemma LedBy2200(s: string)
    requires StartsWith(s, "2200") && '1' !in s
    ensures ParseWordTarget(s) == Range(1900, 2600)
  {
    NotContainsWithoutFirstChar(s, "1500");
  }

  /** A choice that starts with `3000` and holds no `1` or `2` gets the 3000 range. */
  lemma LedBy3000(s: string)
    requires StartsWith(s, "3000") && '1' !in s && '2' !in s
    ensures ParseWordTarget(s) == Range(2600, 3400)
  {
    NotContainsWithoutFirstChar(s, "1500");
    NotContainsWithoutFirstChar(s, "2200");
  }

  /** A choice that starts with `4000` and holds no `1`, `2` or `3` gets the
      4000 range. */
  lemma LedBy4000(s: string)
    requires StartsWith(s, "4000") && '1' !in s && '2' !in s && '3' !in s
    ensures ParseWordTarget(s) == Range(3500, 4500)
  {
    NotContainsWithoutFirstChar(s, "1500");
    NotContainsWithoutFirstChar(s, "2200");
    NotContainsWithoutFirstChar(s, "3000");
  }

  /** A string that lacks the first character of `t` does not contain `t`. */
  lemma {:induction false} NotContainsWithoutFirstChar(s: string, t: string)
    requires t != [] && t[0] !in s
    ensures !Contains(s, t)
    decreases |s|
  {
    if |s| > 0 {
      assert s[0] != t[0];
      assert s == [s[0]] + s[1..];
      NotContainsWithoutFirstChar(s[1..], t);
    }
  }
}

=== FILE: workshop.dfy ===
/** The chapter workshop page: what happens to the session state when a
    chapter is opened, generated or continued. Every reply of the chat model
    is a parameter; an empty reply is what the page sees when the request
    failed. The prompts are modelled by the pieces of state they quote. */
module Workshop {
  import opened Wrappers
  import opened PyText
  import opened SessionState
  import opened WordTarget
  import opened Outline
  import opened ProjectFile

  /** How much of the book outline a generate prompt quotes. */
  const GenerateExcerptLimit: nat := 2500
  /** How much of the book outline a continue prompt quotes. */
  const ContinueExcerptLimit: nat := 2000
  /** How much of the chapter's existing text a continue prompt quotes. */
  const ContinueTailLimit: nat := 1200

  /** The drafts of chapter plans the page keeps under `chapter_plan_{n}`. */
  type PlanDrafts = map<int, string>

  /** Opening chapter `chap` gives it a text and a highlights entry, `""` when
      it had none; what `.get(k, "")` reads is the same for every chapter. */
  function EnsureChapterKeys(p: Project, chap: int): (r: Project)
    ensures chap in r.chapterTexts && chap in r.chapterHighlights
    ensures r.chapterTexts.Keys == p.chapterTexts.Keys + {chap}
    ensures r.chapterHighlights.Keys == p.chapterHighlights.Keys + {chap}
    ensures forall k :: TextOr(r.chapterTexts, k) == TextOr(p.chapterTexts, k)
    ensures forall k :: TextOr(r.chapterHighlights, k) == TextOr(p.chapterHighlights, k)
    ensures r.(chapterTexts := p.chapterTexts, chapterHighlights := p.chapterHighlights) == p
  {
    var texts := if chap in p.chapterTexts then p.chapterTexts else p.chapterTexts[chap := ""];
    var highlights :=
      if chap in p.chapterHighlights then p.chapterHighlights else p.chapterHighlights[chap := ""];
    p.(chapterTexts := texts, chapterHighlights := highlights)
  }

  /** Opening a chapter keeps its plan draft if there is one, and otherwise
      seeds it with the default plan; no other draft changes. */
  function SeedPlan(drafts: PlanDrafts, chapterList: string, chap: int): (r: PlanDrafts)
    ensures r.Keys == drafts.Keys + {chap}
    ensures chap in drafts ==> r[chap] == drafts[chap]
    ensures chap !in drafts ==> r[chap] == BuildDefaultPlan(chapterList, chap)
    ensures forall k :: k in drafts && k != chap ==> r[k] == drafts[k]
  {
    if chap in drafts then drafts else drafts[chap := BuildDefaultPlan(chapterList, chap)]
  }

  /** The title field's default: no request is made without a chapter line,
      otherwise the stripped reply. */
  function AutoTitle(outlineLine: string, reply: string): (title: string)
    ensures outlineLine == [] ==> title == []
    ensures title == [] || (!IsSpace(title[0]) && !IsSpace(title[|title| - 1]))
    ensures outlineLine != [] ==> (title == [] <==> IsBlank(reply))
    ensures outlineLine != [] ==> title == Strip(reply)
  {
    if outlineLine == [] then "" else Strip(reply)
  }

  /** The title is the reply with its surrounding whitespace cut off and
      nothing else changed: it appears in the reply, and a reply that already
      is a title comes back unchanged. */
  lemma AutoTitleFromReply(outlineLine: string, reply: string)
    requires outlineLine != []
    ensures var title := AutoTitle(outlineLine, reply);
      && OccursAt(reply, title, |reply| - |TrimStart(reply)|)
      && AutoTitle(outlineLine, title) == title
  {
    StripFacts(reply);
    StripIdempotent(reply);
  }

  /** What a generate prompt quotes from the state and the page. */
  datatype GeneratePrompt = GeneratePrompt(
    chapter: int,
    outlineExcerpt: string,
    outlineLine: string,
    plan: string,
    title: string,
    target: Range
  )

  /** The generate button: no request for a blank plan; otherwise a prompt
      quoting the start of the outline, the chapter's line of the list, the
      plan, the title and the word range of the chosen label. */
  function GenerateRequest(p: Project, chap: int, plan: string, title: string, choice: string)
    : (r: Option<GeneratePrompt>)
    ensures r.None? <==> IsBlank(plan)
    ensures r.Some? ==>
      && r.value.chapter == chap
      && |r.value.outlineExcerpt| == Min(GenerateExcerptLimit, |p.outlineRaw|)
      && StartsWith(p.outlineRaw, r.value.outlineExcerpt)
      && r.value.outlineLine == OutlineLineForChapter(p.outlineChapterList, chap)
      && (r.value.outlineLine == [] || StartsWith(r.value.outlineLine, Marker(chap)))
      && r.value.plan == plan && r.value.title == title
      && r.value.target == ParseWordTarget(choice)
      && 0 < r.value.target.minWords < r.value.target.maxWords
  {
    if IsBlank(plan) then None
    else
      Some(GeneratePrompt(chap, Head(p.outlineRaw, GenerateExcerptLimit),
        OutlineLineForChapter(p.outlineChapterList, chap), plan, title, ParseWordTarget(choice)))
  }

  function Min(a: int, b: int): int {
    if a < b then a else b
  }

  /** The state after the generate button, given the chapter text and the
      highlights the model replied with: nothing changes for a blank plan or
      an empty text; otherwise the text and highlights replace the chapter's
      and it becomes the last chapter written. */
  function Generate(p: Project, chap: int, plan: string, text: string, highlights: string)
    : (r: Project)
    ensures IsBlank(plan) || text == [] ==> r == p
    ensures !IsBlank(plan) && text != [] ==>
      && TextOr(r.chapterTexts, chap) == text
      && TextOr(r.chapterHighlights, chap) == highlights
      && chap in r.chapterTexts && chap in r.chapterHighlights
      && r.lastChapter == chap
    ensures forall k :: k != chap ==> TextOr(r.chapterTexts, k) == TextOr(p.chapterTexts, k)
    ensures forall k :: k != chap ==> TextOr(r.chapterHighlights, k) == TextOr(p.chapterHighlights, k)
    ensures forall k :: k != chap ==>
      && (k in r.chapterTexts <==> k in p.chapterTexts)
      && (k in r.chapterHighlights <==> k in p.chapterHighlights)
    ensures r.outlineRaw == p.outlineRaw && r.outlineChapterList == p.outlineChapterList
    ensures r.chapterPlans == p.chapterPlans
  {
    if IsBlank(plan) || text == [] then p
    else
      p.(chapterTexts := p.chapterTexts[chap := text],
         chapterHighlights := p.chapterHighlights[chap := highlights],
         lastChapter := chap)
  }

  /** What a continue prompt quotes from the state and the page. */
  datatype ContinuePrompt = ContinuePrompt(
    tail: string,
    plan: string,
    outlineExcerpt: string,
    style: string,
    target: Range
  )

  /** The continue button: no request while the chapter's text is blank;
      otherwise a prompt quoting the end of that text, the plan, the start of
      the outline, the style and the word range of the chosen label. */
  function ContinueRequest(p: Project, chap: int, plan: string, style: string, choice: string)
    : (r: Option<ContinuePrompt>)
    ensures r.None? <==> IsBlank(TextOr(p.chapterTexts, chap))
    ensures r.Some? ==>
      var base := TextOr(p.chapterTexts, chap);
      && |r.value.tail| == Min(ContinueTailLimit, |base|)
      && EndsWith(base, r.value.tail)
      && |r.value.outlineExcerpt| == Min(ContinueExcerptLimit, |p.outlineRaw|)
      && StartsWith(p.outlineRaw, r.value.outlineExcerpt)
      && r.value.plan == plan && r.value.style == style
      && r.value.target == ParseWordTarget(choice)
      && 0 < r.value.target.minWords < r.value.target.maxWords
  {
    var base := TextOr(p.chapterTexts, chap);
    if IsBlank(base) then None
    else
      TailIsSuffix(base, ContinueTailLimit);
      Some(ContinuePrompt(Tail(base, ContinueTailLimit), plan,
        Head(p.outlineRaw, ContinueExcerptLimit), style, ParseWordTarget(choice)))
  }

  /** The separator put between the existing text and the continuation. */
  const Separator := "\n\n"

  /** The state after the continue button, given the continuation and the
      fresh highlights the model replied with: nothing changes for a blank
      text or an empty continuation; otherwise the chapter's text is the old
      text, the separator and the continuation, the chapter becomes the last
      written, and its highlights are replaced unless the reply is empty. */
  function Continue(p: Project, chap: int, add: string, highlights: string): (r: Project)
    ensures IsBlank(TextOr(p.chapterTexts, chap)) || add == [] ==> r == p
    ensures !IsBlank(TextOr(p.chapterTexts, chap)) && add != [] ==>
      var base := TextOr(p.chapterTexts, chap);
      var now := TextOr(r.chapterTexts, chap);
      && |now| == |base| + |Separator| + |add|
      && now[..|base|] == base
      && now[|base|..|base| + |Separator|] == Separator
      && now[|base| + |Separator|..] == add
      && TextOr(r.chapterHighlights, chap) ==
           (if highlights != [] then highlights else TextOr(p.chapterHighlights, chap))
      && chap in r.chapterTexts && chap in r.chapterHighlights
      && r.lastChapter == chap
    ensures forall k :: k != chap ==> TextOr(r.chapterTexts, k) == TextOr(p.chapterTexts, k)
    ensures forall k :: k != chap ==> TextOr(r.chapterHighlights, k) == TextOr(p.chapterHighlights, k)
    ensures forall k :: k != chap ==>
      && (k in r.chapterTexts <==> k in p.chapterTexts)
      && (k in r.chapterHighlights <==> k in p.chapterHighlights)
    ensures r.outlineRaw == p.outlineRaw && r.outlineChapterList == p.outlineChapterList
    ensures r.chapterPlans == p.chapterPlans
  {
    var base := TextOr(p.chapterTexts, chap);
    if IsBlank(base) || add == [] then p
    else
      var combined := base + Separator + add;
      assert combined[..|base|] == base;
      assert combined[|base|..|base| + |Separator|] == Separator;
      assert combined[|base| + |Separator|..] == add;
      var kept := if highlights != [] then highlights else TextOr(p.chapterHighlights, chap);
      p.(chapterTexts := p.chapterTexts[chap := combined],
         chapterHighlights := p.chapterHighlights[chap := kept],
         lastChapter := chap)
  }

  /** Continuing never loses text: the chapter's old text is always a prefix
      of its new one. */
  lemma ContinueKeepsText(p: Project, chap: int, add: string, highlights: string)
    ensures StartsWith(TextOr(Continue(p, chap, add, highlights).chapterTexts, chap),
                       TextOr(p.chapterTexts, chap))
  {
  }

  /** Continuing with each reply of `adds` in turn. */
  function ContinueAll(p: Project, chap: int, adds: seq<string>, highlights: string): Project
    decreases |adds|
  {
    if adds == [] then p
    else ContinueAll(Continue(p, chap, adds[0], highlights), chap, adds[1..], highlights)
  }

  /** However many times a chapter is continued, its text only grows at the
      end, and no other chapter's text changes. */
  lemma {:induction false} ContinueAllKeepsText(p: Project, chap: int, adds: seq<string>, highlights: string)
    ensures var r := ContinueAll(p, chap, adds, highlights);
      && StartsWith(TextOr(r.chapterTexts, chap), TextOr(p.chapterTexts, chap))
      && forall k :: k != chap ==> TextOr(r.chapterTexts, k) == TextOr(p.chapterTexts, k)
    decreases |adds|
  {
    if adds != [] {
      var q := Continue(p, chap, adds[0], highlights);
      ContinueKeepsText(p, chap, adds[0], highlights);
      ContinueAllKeepsText(q, chap, adds[1..], highlights);
      StartsWithTransitive(TextOr(ContinueAll(q, chap, adds[1..], highlights).chapterTexts, chap),
                           TextOr(q.chapterTexts, chap), TextOr(p.chapterTexts, chap));
    }
  }

  lemma StartsWithTransitive(a: string, b: string, c: string)
    requires StartsWith(a, b) && StartsWith(b, c)
    ensures StartsWith(a, c)
  {
    assert a[..|c|] == a[..|b|][..|c|];
  }

  /** The continuation can be read back from the new text: it is everything
      after the old text and the separator. */
  lemma ContinueRecoversReply(p: Project, chap: int, add: string, highlights: string)
    requires !IsBlank(TextOr(p.chapterTexts, chap)) && add != []
    ensures var base := TextOr(p.chapterTexts, chap);
      var now := TextOr(Continue(p, chap, add, highlights).chapterTexts, chap);
      |base| + |Separator| <= |now| && now[|base| + |Separator|..] == add
  {
  }

  /** Pressing generate twice with the same replies gives the same state as
      pressing it once. */
  lemma GenerateIdempotent(p: Project, chap: int, plan: string, text: string, highlights: string)
    ensures var once := Generate(p, chap, plan, text, highlights);
      Generate(once, chap, plan, text, highlights) == once
  {
  }

  /** Continuing a freshly generated chapter appends to the generated text,
      provided that text is not blank. */
  lemma GenerateThenContinue(p: Project, chap: int, plan: string, text: string,
                             highlights: string, add: string, highlights2: string)
    requires !IsBlank(plan) && !IsBlank(text) && add != []
    ensures var r := Continue(Generate(p, chap, plan, text, highlights), chap, add, highlights2);
      && TextOr(r.chapterTexts, chap) == text + Separator + add
      && TextOr(r.chapterHighlights, chap) == (if highlights2 != [] then highlights2 else highlights)
  {
    var g := Generate(p, chap, plan, text, highlights);
    var now := TextOr(Continue(g, chap, add, highlights2).chapterTexts, chap);
    assert now == text + Separator + add;
  }

  /** A whitespace-only generated text cannot be continued: the page asks for
      some text first. */
  lemma BlankTextBlocksContinue(p: Project, chap: int, plan: string, text: string,
                                highlights: string, style: string, choice: string)
    requires !IsBlank(plan) && text != [] && IsBlank(text)
    ensures ContinueRequest(Generate(p, chap, plan, text, highlights), chap, plan, style, choice).None?
  {
  }

  /** The last chapter is not saved: after generating chapter `chap`,
      saving and loading sets it to the largest chapter number in the texts
      map, which is never smaller than `chap`. */
  lemma GenerateThenSaveLoad(p: Project, chap: int, plan: string, text: string,
                             highlights: string, q: Project, doc: Document)
    requires !IsBlank(plan) && text != []
    requires ReadsBack(doc, Export(Generate(p, chap, plan, text, highlights)))
    ensures var loaded := Import(q, Object(doc));
      && loaded.status == Imported
      && TextOr(loaded.state.chapterTexts, chap) == text
      && loaded.state.lastChapter >= chap
  {
    var g := Generate(p, chap, plan, text, highlights);
    SaveLoadRoundTrip(g, q, doc);
    assert chap in g.chapterTexts;
  }

  /** Merely opening a chapter past every chapter written makes it the last
      chapter after a save and load: the `""` entry opening adds is a key of
      the texts map like any other, although the chapter has no text. */
  lemma OpenedChapterBecomesLast(p: Project, chap: int, q: Project, doc: Document)
    requires forall k :: k in p.chapterTexts ==> k < chap
    requires ReadsBack(doc, Export(EnsureChapterKeys(p, chap)))
    ensures var loaded := Import(q, Object(doc));
      && loaded.status == Imported
      && TextOr(loaded.state.chapterTexts, chap) == ""
      && loaded.state.lastChapter == chap
  {
    OpenedIsLast(p, chap);
    SaveLoadRoundTrip(EnsureChapterKeys(p, chap), q, doc);
  }

  lemma OpenedIsLast(p: Project, chap: int)
    requires forall k :: k in p.chapterTexts ==> k < chap
    ensures var texts := EnsureChapterKeys(p, chap).chapterTexts;
      TextOr(texts, chap) == "" && LastChapterOf(texts) == chap
  {
    var texts := EnsureChapterKeys(p, chap).chapterTexts;
    assert chap !in p.chapterTexts;
    assert IsLastChapterOf(texts, chap) by {
      assert texts.Keys == p.chapterTexts.Keys + {chap};
    }
    LastChapterUnique(texts, LastChapterOf(texts), chap);
  }
}

=== FILE: wrappers.dfy ===
/** The optional value used wherever the application may find nothing:
    a missing JSON field, a key that does not parse as an integer. */
module Wrappers {

  datatype Option<+T> = None | Some(value: T) {

    /** The value, or `default` when there is none (Python's `dict.get(key, default)`). */
    function GetOr(default: T): T {
      match this
      case Some(v) => v
      case None => default
    }
  }
}
